=== FILE: README.md ===
# Mandadin document repositories, modelled in Dafny

Mandadin keeps its data in four client-side document collections: Notes, Lists,
ListItems and the per-list HideDone preference. Each collection is a PouchDB
database. The repository functions in `src/Mandadin.Client/wwwroot/js/database.js`
are thin compositions of the engine's `get`, `put`, `remove`, `find`, `allDocs`
and `bulkDocs`. This project models those functions, and the part of the engine
they rely on, as pure functions over immutable state, and proves what each
repository call promises its caller.

Layout:

- `results.dfy`: the `Option` and `Result` types.
- `decimal.dfy`: decimal rendering of natural numbers (how `${Date.now()}` and an
  array index become part of a document id), with its round trip.
- `docstore.dfy`: the revisioned document engine. A collection is a map from id to
  its current revision `Doc(rev, deleted, body)`, plus a listing order and an
  availability flag. Writes follow optimistic concurrency:
  - a write must present the current revision, or no revision for a new id;
  - a stale revision is a 409 conflict;
  - a missing or deleted document reads as 404;
  - deleted documents stay behind as tombstones.
- `replies.dfy`: what a repository call answers. That is the collections' state
  once the call settles, plus a value or a rejection.
- `notes.dfy`, `lists.dfy`, `listitems.dfy`, `preferences.dfy`: one module per
  repository.

Every repository function takes the collections it touches and answers a `Reply`
carrying the new state. So "nothing else changes" and round trips such as
save-then-read are stated as plain equations between calls. `Date.now()`
becomes a parameter: `now` where one id is made, and `nows`, one reading per
row, for a bulk import, whose per-row callback reads the clock again for every
row. A collection whose `online` flag is false stands for an engine that fails
every call with a status other than 404 or 409 (modelled as 500).

Behaviour of the code worth knowing:

- **hideDone polarity.** `buildIndexQuery` shows every item only when `hideDone`
  is the boolean `false`. Any other value, including `undefined`, restricts the
  listing to items not done (`BuildIndexQuery`, `HideArg`).
- **Soft delete.** `DeleteListItem` writes `_deleted: true`, which the engine
  treats as a real deletion. The item then reads as 404 and drops out of every
  query. Undo works by saving the
  answered item again at the tombstone's revision (`ListItems.DeleteThenUndo`).
  The cascade in `DeleteAllListItemsFromList` writes the same kind of tombstone.
- **Deleting a list with a stale revision.** The item cascade runs before the
  list's revision is checked. A stale list revision therefore deletes every item
  and then rejects with a conflict, and the list stays
  (`Lists.StaleListRevStillCascades`).
- **Duplicate list names.** These surface as the engine's 409 conflict. There is
  no separate duplicate-name error.
- **Failed imports.** When the item batch of an import is rejected as a whole,
  the list created just before it stays created (`Lists.ImportList`).
- **Name check on lookup failure.** `ListNameExists` answers `true` when the
  lookup fails with anything but 404. It does not reject.

## Model

| member | source | states |
|---|---|---|
| Decimal.NatToString | src/Mandadin.Client/wwwroot/js/database.js:89 | Rendering a number as in `${…}` gives a non-empty string of digits, so it never starts with the reserved `_` and holds no `:`. Its inverse is `DigitsValueOfNatToString`. |
| Decimal.DigitsValueOfNatToString | src/Mandadin.Client/wwwroot/js/database.js:89 | Reading the rendered numeral of a clock value back as a number gives that value. |
| Decimal.NatToStringInjective | src/Mandadin.Client/wwwroot/js/database.js:231 | Different numbers render as different numerals. This is what keeps the ids of generated documents apart. |
| DocStore.Put | src/Mandadin.Client/wwwroot/js/database.js:93 | Rules for a write. Conditions for success: the engine is up, the id is valid, and the write presents the current revision (or none for an id not yet stored, or none over a tombstone). Otherwise the error is 409 when the id is valid. On success, the id holds the written fields at a revision above the old one, every other document is unchanged, and well-formedness is kept. |
| DocStore.Remove | src/Mandadin.Client/wwwroot/js/database.js:129 | Remove succeeds exactly on the current revision of a stored document. It leaves a tombstone at a higher revision, and the id is no longer live. A missing id gives 404 and a stale revision gives 409. Other documents are untouched. |
| DocStore.Get | src/Mandadin.Client/wwwroot/js/database.js:118 | Get answers the stored revision exactly when the document is live. Otherwise it answers 404, or the outage error when the engine is down. |
| DocStore.Find | src/Mandadin.Client/wwwroot/js/database.js:243-246 | A selector query answers live documents only, each matching the selector and as stored. It answers every live matching document, with no id twice. |
| DocStore.AllDocs | src/Mandadin.Client/wwwroot/js/database.js:75 | allDocs answers exactly the live documents, each as stored. |
| DocStore.BulkDocs | src/Mandadin.Client/wwwroot/js/database.js:236 | A batch is rejected as a whole only when the engine is down or some id is invalid. Otherwise it yields one result per submitted document and keeps the collection well-formed. When the ids are distinct, each result reports on its own document against the state before the batch (see `ApplyAllReports`). An accepted batch only adds documents under its own ids, keeps every document already stored, and leaves every document outside the batch as it was. |
| DocStore.ApplyAllReports | src/Mandadin.Client/wwwroot/js/database.js:236 | In a batch with distinct ids, each document succeeds exactly when it passes the revision check against the state before the batch, whatever the others do. A success leaves it stored as submitted at the acknowledged revision. A refusal is a 409 conflict for a valid id and leaves that id exactly as it was. |
| DocStore.ApplyAllAccepted | src/Mandadin.Client/wwwroot/js/database.js:249-250 | In a batch, each document has a distinct id and passes the revision check. Then every document succeeds and is stored exactly as submitted. |
| DocStore.PutThenGet | src/Mandadin.Client/wwwroot/js/database.js:319-326 | Reading back after a successful put gives the written fields at the acknowledged revision. Reads of other ids are unchanged. |
| DocStore.PutWithoutRevOnLiveConflicts | src/Mandadin.Client/wwwroot/js/database.js:197 | Writing a live id without a revision is always a 409 conflict. |
| DocStore.StaleRevConflicts | src/Mandadin.Client/wwwroot/js/database.js:104-108 | A put or remove that presents any revision but the current one is a 409 conflict. |
| Notes.ToNotes | src/Mandadin.Client/wwwroot/js/database.js:45-69 | Each stored document maps, position for position, to the note with its id, revision and content (`mapDocument`, `mapAllDocs`). |
| Notes.FindNotes | src/Mandadin.Client/wwwroot/js/database.js:59-81 | Every listed note is held in the collection as listed. Every live note is listed. |
| Notes.CreateNote | src/Mandadin.Client/wwwroot/js/database.js:88-96 | Creation succeeds exactly when the engine is up and the clock-derived id is free. The note answered carries that id and the content, and is what the collection now holds. No other id appears and every other note is unchanged. |
| Notes.UpdateNote | src/Mandadin.Client/wwwroot/js/database.js:103-110 | Update succeeds exactly on the current revision. It answers the note with its content at a higher revision, and that is what is stored. Every other note is unchanged. A stale revision is a 409 conflict and leaves the collection unchanged. |
| Notes.FindNote | src/Mandadin.Client/wwwroot/js/database.js:117-119 | FindNote answers the stored note exactly when it is live. Otherwise it answers 404. |
| Notes.DeleteNote | src/Mandadin.Client/wwwroot/js/database.js:127-138 | Delete succeeds exactly on the current revision. It answers the id and the revision of the tombstone now stored, which is above `rev`, and the note is no longer live. Other notes are untouched. A missing id gives 404 and a stale revision gives 409. |
| Notes.CreateThenFind | src/Mandadin.Client/wwwroot/js/database.js:88-119 | A created note is found under its id exactly as answered. |
| Notes.UpdateThenFindAndStale | src/Mandadin.Client/wwwroot/js/database.js:103-119 | After an update the note is found with the new content at a new revision. Updating again with the old revision conflicts. |
| Notes.DeleteThenFind | src/Mandadin.Client/wwwroot/js/database.js:117-138 | A deleted note is not found afterwards. Deleting it again with the same revision conflicts. |
| Lists.FindLists | src/Mandadin.Client/wwwroot/js/database.js:143-158 | Every listed list is live at the listed revision. Every live list is listed. |
| Lists.FindList | src/Mandadin.Client/wwwroot/js/database.js:165-170 | The list named `name` is found, at its revision, exactly when it is live. Otherwise the lookup fails with 404 while the engine is up. |
| Lists.ListNameExists | src/Mandadin.Client/wwwroot/js/database.js:177-189 | A name reads as free only when the engine answers and no live list has it. Any other lookup failure counts as taken. |
| Lists.CreateList | src/Mandadin.Client/wwwroot/js/database.js:196-199 | Creation succeeds exactly for a valid name no live list has. On success the list is live under the name itself. A taken name is a 409 conflict, and other lists are untouched. |
| Lists.ItemsToCreate | src/Mandadin.Client/wwwroot/js/database.js:229-235 | Exactly one document is submitted per row, in row order. Row `k`'s id is built from the list id, `k` and that row's own clock reading. Each keeps the row's name and done state and carries the list id. Ids start with the list id and a colon and are pairwise distinct, whatever the clock readings. |
| Lists.RowIdInjective | src/Mandadin.Client/wwwroot/js/database.js:231 | A row id determines both the row index and the clock reading it was built with. |
| Lists.RowIdsDistinct | src/Mandadin.Client/wwwroot/js/database.js:231 | Rows at different indices get different ids for any list, even when each row read a different clock value. |
| Lists.BulkCreateListItems | src/Mandadin.Client/wwwroot/js/database.js:228-237 | The batch is accepted exactly when the engine is up and the list id yields valid item ids (or there are no rows). It then answers one result per row. The item collection only gains documents under the generated row ids; every item already stored is kept, and every item outside the batch is left as it was. |
| Lists.ImportList | src/Mandadin.Client/wwwroot/js/database.js:206-220 | Import answers the created list, at the revision now stored for it, exactly when the list can be created and the item engine is up, whatever the per-row outcomes. When the create step rejects, nothing changes. When only the batch is rejected, the created list stays. Other lists are untouched. Items already stored are kept, and only the generated row ids can change or appear. |
| Lists.DeleteAllListItemsFromList | src/Mandadin.Client/wwwroot/js/database.js:241-258 | The cascade succeeds whenever the item engine is up. Any failure becomes the cascade rejection and leaves the items unchanged. |
| Lists.DeleteList | src/Mandadin.Client/wwwroot/js/database.js:260-269 | Deletion succeeds exactly when the item engine is up and the list is removable at `rev`. If the cascade rejects, nothing changes. On success the list is no longer live and every other list document is exactly as before. On any rejection the list collection is unchanged. |
| Lists.CreateListTwiceConflicts | src/Mandadin.Client/wwwroot/js/database.js:177-199 | After a successful create, the name exists, and creating it again is a 409 conflict. |
| Lists.NeverCreatedNameIsFree | src/Mandadin.Client/wwwroot/js/database.js:177-189 | A name that was never stored reads as free while the engine answers. |
| Lists.MarkDeleted | src/Mandadin.Client/wwwroot/js/database.js:249 | The batch names exactly the ids of the found documents, one request per found document. Distinct found ids give distinct request ids. Each request is a deletion at the found document's revision and keeps its fields. |
| Lists.MarkDeletedApplies | src/Mandadin.Client/wwwroot/js/database.js:249-250 | Writing found items back with `_deleted` at their revisions tombstones each of them. |
| Lists.MarkDeletedAccepted | src/Mandadin.Client/wwwroot/js/database.js:243-250 | Against any collection that still holds the found documents as found, every request of the cascade batch is a deletion the engine admits, since it names the stored revision. |
| Lists.CascadeEffect | src/Mandadin.Client/wwwroot/js/database.js:241-258 | After the cascade, no live item belongs to the list. Every document of other lists is untouched, and no id is added or dropped. |
| Lists.DeleteListRemovesListAndItems | src/Mandadin.Client/wwwroot/js/database.js:260-269 | After a successful list deletion, the list is not found and its item listing is empty. Items of other lists are untouched. |
| Lists.FailedCascadeKeepsList | src/Mandadin.Client/wwwroot/js/database.js:260-269 | When the cascade rejects, the deletion rejects with that cause and the list is exactly as before. |
| Lists.StaleListRevStillCascades | src/Mandadin.Client/wwwroot/js/database.js:260-269 | With a stale list revision, the items are deleted, the removal conflicts, and the list stays. |
| Lists.ImportStoresFreeRows | src/Mandadin.Client/wwwroot/js/database.js:206-237 | Whatever happens to the other rows, an import stores every row whose id was not live as a live item of the list with the row's fields. An item already live under a row's id is left exactly as it was. |
| Lists.ImportStoresEveryRow | src/Mandadin.Client/wwwroot/js/database.js:206-237 | An import into free ids answers the list and stores every row as a live item of the list with the row's name and done state. |
| Lists.SoleActiveItem | src/Mandadin.Client/wwwroot/js/database.js:271-293 | When one live item of a list is not done, hiding done items lists that item and nothing else. |
| Lists.GroceriesScenario | src/Mandadin.Client/wwwroot/js/database.js:206-293 | Importing "Groceries" with a not-done "Milk" and a done "Eggs" into empty collections, then listing with hideDone set, yields "Milk" only, for any clock readings of the two rows. |
| ListItems.BuildIndexQuery | src/Mandadin.Client/wwwroot/js/database.js:271-280 | The selector always names the list. It leaves done state open exactly when hideDone is the boolean false. Otherwise it asks for `isDone: false`. |
| ListItems.GetListItems | src/Mandadin.Client/wwwroot/js/database.js:288-298 | Every listed item has the queried list id, and is the projection of what is stored. No listed item is done unless hideDone is false. Every live item the selector admits is listed, with no id twice. |
| ListItems.ListItemExists | src/Mandadin.Client/wwwroot/js/database.js:304-315 | The answer is true exactly when some live item of the list has that name. |
| ListItems.ItemId | src/Mandadin.Client/wwwroot/js/database.js:321 | An item id is the list id, a colon and a suffix. It is valid exactly when the list id does not start with the reserved `_`. |
| ListItems.CreateListItem | src/Mandadin.Client/wwwroot/js/database.js:317-332 | Creation succeeds exactly when the id is free and valid. It answers a not-done item with the given list and name, read back from the collection. No other id appears and every other item is unchanged. |
| ListItems.WriteItem | src/Mandadin.Client/wwwroot/js/database.js:339-349 | A full overwrite at `item.rev` succeeds exactly when the revision check passes. It answers the item unchanged but for a higher revision, and stores its fields. No id is added or dropped and others are untouched. |
| ListItems.UpdateListItem | src/Mandadin.Client/wwwroot/js/database.js:339-349 | Update succeeds exactly on the current revision. It answers the item at a higher revision, and that is what is stored. Every other item is unchanged and well-formedness is kept. A stale revision is a 409 conflict. |
| ListItems.DeleteListItem | src/Mandadin.Client/wwwroot/js/database.js:356-359 | Soft delete succeeds exactly on the current revision. The document becomes a tombstone keeping its fields, stored at the revision answered. The answer is the item at that revision without a deletion marker. Other items are untouched. A stale revision is a 409 conflict. |
| ListItems.HideDoneListsNoDoneItem | src/Mandadin.Client/wwwroot/js/database.js:271-293 | With hideDone anything but false, no listed item is done. |
| ListItems.ShowAllListsEveryItem | src/Mandadin.Client/wwwroot/js/database.js:271-293 | With hideDone false, a live item is listed if and only if it belongs to the list. |
| ListItems.CreatedItemIsListed | src/Mandadin.Client/wwwroot/js/database.js:271-332 | A created item is listed under every hideDone setting, and its name now exists in the list. |
| ListItems.DeleteThenUndo | src/Mandadin.Client/wwwroot/js/database.js:339-359 | A soft-deleted item reads as 404 and leaves the listing. Saving the answered item again restores it with its fields. |
| Preferences.GetHideDone | src/Mandadin.Client/wwwroot/js/database.js:362-372 | The preference reads as the stored value when live and as false on 404. It rejects only when the engine is down. |
| Preferences.SaveHideDone | src/Mandadin.Client/wwwroot/js/database.js:374-388 | Save succeeds exactly when the engine is up and the id is valid, whether or not the document existed. The value is then stored and live, and other lists' preferences are untouched. |
| Preferences.DefaultIsFalse | src/Mandadin.Client/wwwroot/js/database.js:362-368 | With no preference saved, the preference reads as false. |
| Preferences.SaveThenGet | src/Mandadin.Client/wwwroot/js/database.js:362-388 | After a save, reading gives the saved value. Reads for other lists are unchanged. |
| Preferences.SaveIsIdempotent | src/Mandadin.Client/wwwroot/js/database.js:374-388 | Saving the same value twice reads the same as saving it once. |

## Left out

- Index creation at start-up (`database.js:8-37`) and the `use_index` hints. A query is modelled as a filter by its selector. A query that fails because the index it names was never created is represented by an unavailable collection.
- `console.log`, `console.warn` and `console.table` calls. They are diagnostics with no effect on results.
- The clock. `Date.now()` becomes caller-supplied readings (`now`, or `nows` with one reading per imported row), so the model does not decide which values the clock gives or whether two calls in the same millisecond collide. The contracts state what happens when an id is already taken.
- Engine internals beyond a revisioned map:
  - revision hashes and revision trees (a revision is a counter);
  - replication, attachments and compaction;
  - `_design/` and `_local/` ids;
  - generated ids for documents without an `_id`.
- Listing order. `allDocs` and `find` return ids in first-write order here, while PouchDB returns them in id or index order. No contract depends on the order.
- Rejection messages. A rejection carries its cause (`StoreRejected`, `NotAcknowledged`, `CascadeFailed`), not a text. Places where the code's text would be `undefined` or a `ReferenceError` are therefore just rejections:
  - the `ImportList` catch that reads an undeclared `error`;
  - `DeleteList` reading `.message` of the cascade's string rejection;
  - `SaveHideDone`, whose second `catch` (database.js:384-387) reads `.message` of the string the first `catch` rejected with (database.js:382). Every failure other than a missing preference document therefore rejects with `undefined`; only a failure of the put that creates the document (database.js:379) keeps its message.
- Acknowledgements with `ok: false`. The engine never produces them, so the `NotAcknowledged` branches of `DeleteNote`, `CreateListItem` and `UpdateListItem` are modelled but never taken.
- Asynchrony and interleaving. Every call is modelled as running to completion on its own.
- The theme, share, clipboard, interop and overlay scripts, and the older `Mandadin/wwwroot/js` copies. They wrap browser APIs and hold no repository logic.
- Lists.DeleteAllListItemsFromList: success is promised only for a well-formed collection (every stored id valid). Only there is it known that the batch of found documents cannot be refused for an invalid id.
- Lists.DeleteList: its if-and-only-if is stated only for a well-formed item collection, for the same reason.
- DocStore.Remove: the tombstone it leaves keeps the document's last fields, where the engine's `remove(id, rev)` stores only the id, the revision and the deletion marker. No modelled operation reads a tombstone's fields, so this is not observable. The tombstones written by `put` with `_deleted: true` (the cascade and the soft delete) do keep their fields, as modelled.
- ListItems.CreateListItem: engine availability is fixed for the whole call. So the read-back after a successful write cannot fail, and a rejection that leaves the item written is not modelled. The clause that a rejection leaves the collection unchanged rests on this.

=== FILE: decimal.dfy ===
/**
 * Decimal rendering of natural numbers, the way a template literal prints
 * `Date.now()` and an array index into a document identifier.
 */
module Decimal {

  predicate IsDigit(c: char) {
    '0' <= c <= '9'
  }

  predicate AllDigits(s: string) {
    forall k :: 0 <= k < |s| ==> IsDigit(s[k])
  }

  function DigitChar(d: nat): (c: char)
    requires d < 10
    ensures IsDigit(c)
  {
    (('0' as int) + d) as char
  }

  function DigitValue(c: char): (d: nat)
    requires IsDigit(c)
    ensures d < 10
  {
    (c as int) - ('0' as int)
  }

  /** The shortest decimal numeral of `n`, most significant digit first. */
  function NatToString(n: nat): (s: string)
    ensures |s| > 0
    ensures AllDigits(s)
    ensures s[0] != '_' && s[0] != ':'
  {
    if n < 10 then [DigitChar(n)] else NatToString(n / 10) + [DigitChar(n % 10)]
  }

  /** Reads a digit string back as the number it denotes. */
  function DigitsValue(s: string): nat
    requires AllDigits(s)
  {
    if s == [] then 0 else 10 * DigitsValue(s[..|s| - 1]) + DigitValue(s[|s| - 1])
  }

  /** Reading back a rendered numeral gives the original number. */
  lemma {:induction false} DigitsValueOfNatToString(n: nat)
    ensures DigitsValue(NatToString(n)) == n
  {
    if n < 10 {
      var s := NatToString(n);
      assert s[..|s| - 1] == [];
    } else {
      var p := NatToString(n / 10);
      var s := p + [DigitChar(n % 10)];
      assert s[..|s| - 1] == p;
      DigitsValueOfNatToString(n / 10);
    }
  }

  /** Distinct numbers render as distinct numerals. */
  lemma NatToStringInjective(a: nat, b: nat)
    ensures NatToString(a) == NatToString(b) ==> a == b
  {
    DigitsValueOfNatToString(a);
    DigitsValueOfNatToString(b);
  }
}

=== FILE: docstore.dfy ===
/**
 * The revisioned document engine under each collection (one PouchDB
 * database per collection), reduced to what the repositories rely on:
 * get, put, remove, a selector find, allDocs and bulkDocs, with
 * optimistic concurrency on revision counters and tombstones for
 * deleted documents.
 */
module DocStore {
  import opened Results

  /** Failures the engine reports. */
  datatype StoreError = NotFound | Conflict | MissingId | ReservedId | Unavailable
  {
    /** The HTTP-style status the engine attaches to the failure. */
    function Status(): nat {
      match this
      case NotFound => 404
      case Conflict => 409
      case MissingId => 412
      case ReservedId => 400
      case Unavailable => 500
    }
  }

  /** One stored revision: generation counter, tombstone flag (`_deleted`) and fields. */
  datatype Doc<T> = Doc(rev: nat, deleted: bool, body: T)

  /** A document as a query returns it: its `_id` with its current revision. */
  datatype Entry<T> = Entry(id: string, doc: Doc<T>)

  /** The acknowledgement of one write: `{ok, id, rev}`. */
  datatype Ack = Ack(ok: bool, id: string, rev: nat)

  /**
   * One collection. `order` is the store-native listing order of the ids;
   * `online` is false when the engine fails every call with an error other
   * than 404 or 409.
   */
  datatype Store<T> = Store(docs: map<string, Doc<T>>, order: seq<string>, online: bool)
  {
    predicate Valid() {
      && (forall i, j :: 0 <= i < j < |order| ==> order[i] != order[j])
      && (forall id :: id in order ==> id in docs)
      && (forall id :: id in docs ==> id in order && ValidId(id))
    }

    /** `id` names a document that is present and not a tombstone. */
    predicate Live(id: string) {
      id in docs && !docs[id].deleted
    }
  }

  /** The engine's state after a successful write, with its acknowledgement. */
  datatype Write<T> = Write(store: Store<T>, ack: Ack)

  /** One document of a `bulkDocs` batch. */
  datatype Req<T> = Req(id: string, rev: Option<nat>, deleted: bool, body: T)

  /** The engine's state after a batch, with one result per submitted document. */
  datatype Batch<T> = Batch(store: Store<T>, results: seq<Result<Ack, StoreError>>)

  function EmptyStore<T>(): (s: Store<T>)
    ensures s.Valid() && s.online
    ensures forall id :: !s.Live(id)
  {
    Store(map[], [], true)
  }

  /** Ids the engine accepts on a write: non-empty, not starting with the reserved `_`. */
  predicate ValidId(id: string) {
    |id| > 0 && id[0] != '_'
  }

  /** The engine's rejection of an id before any document is looked at. */
  function IdError(id: string): (e: Option<StoreError>)
    ensures e.None? <==> ValidId(id)
  {
    if id == [] then Some(MissingId)
    else if id[0] == '_' then Some(ReservedId)
    else None
  }

  /**
   * Whether a write presenting `rev` may extend the current revision `cur`:
   * the presented revision is the current one, or `cur` is a tombstone and a
   * revision-less non-delete write starts the document afresh on top of it.
   */
  predicate Extends<T>(cur: Doc<T>, rev: Option<nat>, deleted: bool) {
    rev == Some(cur.rev) || (cur.deleted && rev.None? && !deleted)
  }

  /** Whether a write of `id` presenting `rev` passes the revision check. */
  predicate Admits<T>(s: Store<T>, id: string, rev: Option<nat>, deleted: bool) {
    if id in s.docs then Extends(s.docs[id], rev, deleted) else rev.None?
  }

  /** `put`: writes a new revision of `id`, or rejects the write. */
  function Put<T>(s: Store<T>, id: string, rev: Option<nat>, deleted: bool, body: T): (r: Result<Write<T>, StoreError>)
    ensures r.Ok? <==> s.online && ValidId(id) && Admits(s, id, rev, deleted)
    ensures !s.online ==> r == Err(Unavailable)
    ensures s.online && ValidId(id) && r.Err? ==> r.error == Conflict
    ensures r.Ok? ==>
              var w := r.value;
              && w.ack.ok && w.ack.id == id
              && id in w.store.docs && w.store.docs[id] == Doc(w.ack.rev, deleted, body)
              && (id in s.docs ==> w.ack.rev > s.docs[id].rev)
              && w.store.online
              && (forall k :: k in w.store.docs <==> k in s.docs || k == id)
              && (forall k :: k != id && k in s.docs ==> w.store.docs[k] == s.docs[k])
              && (s.Valid() ==> w.store.Valid())
  {
    if !s.online then Err(Unavailable)
    else if IdError(id).Some? then Err(IdError(id).value)
    else if id in s.docs then
      var cur := s.docs[id];
      if Extends(cur, rev, deleted) then
        var next := Doc(cur.rev + 1, deleted, body);
        Ok(Write(s.(docs := s.docs[id := next]), Ack(true, id, next.rev)))
      else Err(Conflict)
    else if rev.Some? then Err(Conflict)
    else
      var first := Doc(1, deleted, body);
      Ok(Write(s.(docs := s.docs[id := first], order := s.order + [id]), Ack(true, id, 1)))
  }

  /** `remove(id, rev)`: replaces the current revision with a tombstone. */
  function Remove<T>(s: Store<T>, id: string, rev: nat): (r: Result<Write<T>, StoreError>)
    ensures r.Ok? <==> s.online && ValidId(id) && id in s.docs && s.docs[id].rev == rev
    ensures s.online && ValidId(id) && id !in s.docs ==> r == Err(NotFound)
    ensures s.online && ValidId(id) && id in s.docs && s.docs[id].rev != rev ==> r == Err(Conflict)
    ensures r.Ok? ==>
              var w := r.value;
              && w.ack.ok && w.ack.id == id && w.ack.rev > rev
              && id in w.store.docs && w.store.docs[id] == Doc(w.ack.rev, true, s.docs[id].body)
              && !w.store.Live(id)
              && w.store.online
              && (forall k :: k in w.store.docs <==> k in s.docs)
              && (forall k :: k != id && k in s.docs ==> w.store.docs[k] == s.docs[k])
              && (s.Valid() ==> w.store.Valid())
  {
    if !s.online then Err(Unavailable)
    else if IdError(id).Some? then Err(IdError(id).value)
    else if id !in s.docs then Err(NotFound)
    else Put(s, id, Some(rev), true, s.docs[id].body)
  }

  /** `get(id)`: the current revision of a live document. */
  function Get<T>(s: Store<T>, id: string): (r: Result<Doc<T>, StoreError>)
    ensures r.Ok? <==> s.online && s.Live(id)
    ensures r.Ok? ==> r.value == s.docs[id]
    ensures !s.online ==> r == Err(Unavailable)
    ensures s.online && r.Err? ==> r.error == NotFound
  {
    if !s.online then Err(Unavailable)
    else if id in s.docs && !s.docs[id].deleted then Ok(s.docs[id])
    else Err(NotFound)
  }

  predicate DistinctIds<T>(es: seq<Entry<T>>) {
    forall i, j :: 0 <= i < j < |es| ==> es[i].id != es[j].id
  }

  /** The live documents among `ids`, in that order, whose fields satisfy `p`. */
  function Select<T(==)>(docs: map<string, Doc<T>>, ids: seq<string>, p: T -> bool): (r: seq<Entry<T>>)
    ensures forall e :: e in r ==> e.id in ids && e.id in docs && e.doc == docs[e.id] && !e.doc.deleted && p(e.doc.body)
    ensures forall id :: id in ids && id in docs && !docs[id].deleted && p(docs[id].body) ==> Entry(id, docs[id]) in r
    ensures (forall i, j :: 0 <= i < j < |ids| ==> ids[i] != ids[j]) ==> DistinctIds(r)
  {
    if ids == [] then []
    else
      var id := ids[0];
      var rest := Select(docs, ids[1..], p);
      if id in docs && !docs[id].deleted && p(docs[id].body) then [Entry(id, docs[id])] + rest else rest
  }

  /** `find({selector})`: every live document whose fields satisfy the selector `p`. */
  function Find<T(==)>(s: Store<T>, p: T -> bool): (r: Result<seq<Entry<T>>, StoreError>)
    ensures r.Ok? <==> s.online
    ensures !s.online ==> r == Err(Unavailable)
    ensures r.Ok? ==> forall e :: e in r.value ==> s.Live(e.id) && e.doc == s.docs[e.id] && p(e.doc.body)
    ensures r.Ok? && s.Valid() ==> forall id :: s.Live(id) && p(s.docs[id].body) ==> Entry(id, s.docs[id]) in r.value
    ensures r.Ok? && s.Valid() ==> DistinctIds(r.value)
  {
    if !s.online then Err(Unavailable) else Ok(Select(s.docs, s.order, p))
  }

  /** `allDocs({include_docs: true})`: every live document. */
  function AllDocs<T(==)>(s: Store<T>): (r: Result<seq<Entry<T>>, StoreError>)
    ensures r.Ok? <==> s.online
    ensures r.Ok? ==> forall e :: e in r.value ==> s.Live(e.id) && e.doc == s.docs[e.id]
    ensures r.Ok? && s.Valid() ==> forall id :: s.Live(id) ==> Entry(id, s.docs[id]) in r.value
  {
    Find(s, (b: T) => true)
  }

  /** The ids a batch writes. */
  function ReqIds<T>(reqs: seq<Req<T>>): set<string> {
    set k | 0 <= k < |reqs| :: reqs[k].id
  }

  /** The first id of a batch the engine rejects, in batch order. */
  function FirstIdError<T>(reqs: seq<Req<T>>): (e: Option<StoreError>)
    ensures e.None? <==> forall k :: 0 <= k < |reqs| ==> ValidId(reqs[k].id)
  {
    if reqs == [] then None
    else if IdError(reqs[0].id).Some? then IdError(reqs[0].id)
    else FirstIdError(reqs[1..])
  }

  /** Applies the documents of a batch one after another, collecting each outcome. */
  function ApplyAll<T>(s: Store<T>, reqs: seq<Req<T>>): (b: Batch<T>)
    ensures |b.results| == |reqs|
    ensures b.store.online == s.online
    ensures s.Valid() ==> b.store.Valid()
    ensures forall k :: k in b.store.docs ==> k in s.docs || k in ReqIds(reqs)
    ensures forall k :: k in s.docs ==> k in b.store.docs
    ensures forall k :: k in s.docs && k !in ReqIds(reqs) ==> b.store.docs[k] == s.docs[k]
    decreases |reqs|
  {
    if reqs == [] then Batch(s, [])
    else
      var q := reqs[0];
      assert reqs == [q] + reqs[1..];
      match Put(s, q.id, q.rev, q.deleted, q.body)
      case Ok(w) =>
        var rest := ApplyAll(w.store, reqs[1..]);
        Batch(rest.store, [Ok(w.ack)] + rest.results)
      case Err(e) =>
        var rest := ApplyAll(s, reqs[1..]);
        Batch(rest.store, [Err(e)] + rest.results)
  }

  /**
   * `bulkDocs(docs)`: rejects the whole batch when the engine is down or an
   * id is invalid; otherwise every document succeeds or fails on its own.
   */
  function BulkDocs<T>(s: Store<T>, reqs: seq<Req<T>>): (r: Result<Batch<T>, StoreError>)
    ensures r.Ok? <==> s.online && forall k :: 0 <= k < |reqs| ==> ValidId(reqs[k].id)
    ensures r.Ok? ==> |r.value.results| == |reqs| && r.value.store.online
    ensures r.Ok? && s.Valid() ==> r.value.store.Valid()
    ensures r.Ok? ==> forall k :: k in r.value.store.docs ==> k in s.docs || k in ReqIds(reqs)
    ensures r.Ok? ==> forall k :: k in s.docs ==> k in r.value.store.docs
    ensures r.Ok? ==> forall k :: k in s.docs && k !in ReqIds(reqs) ==> r.value.store.docs[k] == s.docs[k]
    ensures r.Ok? && (forall i, j :: 0 <= i < j < |reqs| ==> reqs[i].id != reqs[j].id) ==>
              forall k :: 0 <= k < |reqs| ==> Reports(s, r.value.store, reqs[k], r.value.results[k])
  {
    if !s.online then Err(Unavailable)
    else match FirstIdError(reqs)
      case Some(e) => Err(e)
      case None =>
        assert (forall i, j :: 0 <= i < j < |reqs| ==> reqs[i].id != reqs[j].id) ==>
                 forall k :: 0 <= k < |reqs| ==> Reports(s, ApplyAll(s, reqs).store, reqs[k], ApplyAll(s, reqs).results[k]) by {
          if forall i, j :: 0 <= i < j < |reqs| ==> reqs[i].id != reqs[j].id {
            ApplyAllReports(s, reqs);
          }
        }
        Ok(ApplyAll(s, reqs))
  }

  // ---------------------------------------------------------------------
  // Properties of the engine the repositories rely on.
  // ---------------------------------------------------------------------

  /** Reading back after a successful non-delete put gives what was written. */
  lemma PutThenGet<T>(s: Store<T>, id: string, rev: Option<nat>, body: T, other: string)
    requires Put(s, id, rev, false, body).Ok?
    ensures var w := Put(s, id, rev, false, body).value;
            && Get(w.store, id) == Ok(Doc(w.ack.rev, false, body))
            && (other != id ==> Get(w.store, other) == Get(s, other))
  {
  }

  /** A put that presents no revision on a live document always conflicts. */
  lemma PutWithoutRevOnLiveConflicts<T>(s: Store<T>, id: string, deleted: bool, body: T)
    requires s.online && ValidId(id) && s.Live(id)
    ensures Put(s, id, None, deleted, body) == Err(Conflict)
  {
  }

  /** A put or remove presenting any revision but the current one conflicts. */
  lemma StaleRevConflicts<T>(s: Store<T>, id: string, stale: nat, deleted: bool, body: T)
    requires s.online && ValidId(id) && id in s.docs && stale != s.docs[id].rev
    ensures Put(s, id, Some(stale), deleted, body) == Err(Conflict)
    ensures Remove(s, id, stale) == Err(Conflict)
  {
  }

  /** Whether one batch document passes the revision check against `s`. */
  predicate Accepted<T>(s: Store<T>, q: Req<T>) {
    ValidId(q.id) && Admits(s, q.id, q.rev, q.deleted)
  }

  /** A successful write of one id leaves every document about another id as accepted as it was. */
  lemma AcceptedAfterPut<T>(s: Store<T>, q: Req<T>, tail: seq<Req<T>>)
    requires s.online && Accepted(s, q)
    requires forall k :: 0 <= k < |tail| ==> Accepted(s, tail[k]) && tail[k].id != q.id
    ensures Put(s, q.id, q.rev, q.deleted, q.body).Ok?
    ensures forall k :: 0 <= k < |tail| ==> Accepted(Put(s, q.id, q.rev, q.deleted, q.body).value.store, tail[k])
  {
  }

  /** How a batch unfolds when its first document is written. */
  lemma ApplyAllFirstWritten<T>(s: Store<T>, reqs: seq<Req<T>>)
    requires reqs != [] && Put(s, reqs[0].id, reqs[0].rev, reqs[0].deleted, reqs[0].body).Ok?
    ensures var w := Put(s, reqs[0].id, reqs[0].rev, reqs[0].deleted, reqs[0].body).value;
            var rest := ApplyAll(w.store, reqs[1..]);
            ApplyAll(s, reqs) == Batch(rest.store, [Ok(w.ack)] + rest.results)
  {
  }

  /**
   * A batch whose ids are pairwise distinct and whose every document passes
   * the revision check against the starting state succeeds document by
   * document, and each document ends up stored as submitted.
   */
  lemma {:induction false} ApplyAllAccepted<T>(s: Store<T>, reqs: seq<Req<T>>)
    requires s.online
    requires forall i, j :: 0 <= i < j < |reqs| ==> reqs[i].id != reqs[j].id
    requires forall k :: 0 <= k < |reqs| ==> Accepted(s, reqs[k])
    ensures var b := ApplyAll(s, reqs);
            forall k :: 0 <= k < |reqs| ==>
              && b.results[k].Ok?
              && b.results[k].value.id == reqs[k].id
              && reqs[k].id in b.store.docs
              && b.store.docs[reqs[k].id] == Doc(b.results[k].value.rev, reqs[k].deleted, reqs[k].body)
    decreases |reqs|
  {
    if reqs != [] {
      var q := reqs[0];
      var tail := reqs[1..];
      assert forall k :: 0 <= k < |tail| ==> tail[k] == reqs[k + 1];
      AcceptedAfterPut(s, q, tail);
      var w := Put(s, q.id, q.rev, q.deleted, q.body).value;
      ApplyAllAccepted(w.store, tail);
      var rest := ApplyAll(w.store, tail);
      ApplyAllFirstWritten(s, reqs);
      var b := ApplyAll(s, reqs);
      assert q.id !in ReqIds(tail);
      forall k | 0 <= k < |reqs|
        ensures && b.results[k].Ok?
                && b.results[k].value.id == reqs[k].id
                && reqs[k].id in b.store.docs
                && b.store.docs[reqs[k].id] == Doc(b.results[k].value.rev, reqs[k].deleted, reqs[k].body)
      {
        if k > 0 {
          assert reqs[k] == tail[k - 1] && b.results[k] == rest.results[k - 1];
        }
      }
    }
  }

  /** `id` is stored the same way in `a` and `b`: present in both with equal revisions, or absent from both. */
  ghost predicate SameAt<T>(a: Store<T>, b: Store<T>, id: string) {
    && (id in a.docs <==> id in b.docs)
    && (id in a.docs ==> a.docs[id] == b.docs[id])
  }

  /**
   * What one batch result reports about document `q`, submitted against
   * `s`, once the batch has left the collection as `after`: success exactly
   * when `q` passes the revision check, with `q` then stored as submitted;
   * otherwise a conflict (for a valid id) and `q.id` as it was.
   */
  ghost predicate Reports<T>(s: Store<T>, after: Store<T>, q: Req<T>, res: Result<Ack, StoreError>) {
    && (res.Ok? <==> Accepted(s, q))
    && (res.Ok? ==> res.value.id == q.id && q.id in after.docs && after.docs[q.id] == Doc(res.value.rev, q.deleted, q.body))
    && (res.Err? ==> (ValidId(q.id) ==> res.error == Conflict) && SameAt(s, after, q.id))
  }

  /** How a batch unfolds when its first document is refused. */
  lemma ApplyAllFirstRefused<T>(s: Store<T>, reqs: seq<Req<T>>)
    requires reqs != [] && Put(s, reqs[0].id, reqs[0].rev, reqs[0].deleted, reqs[0].body).Err?
    ensures var rest := ApplyAll(s, reqs[1..]);
            ApplyAll(s, reqs) == Batch(rest.store, [Err(Put(s, reqs[0].id, reqs[0].rev, reqs[0].deleted, reqs[0].body).error)] + rest.results)
  {
  }

  /** A report about `q` stays true when what lies between the states leaves `q.id` alone. */
  lemma ReportsAcross<T>(s: Store<T>, s1: Store<T>, after: Store<T>, q: Req<T>, res: Result<Ack, StoreError>)
    requires SameAt(s, s1, q.id)
    requires Reports(s1, after, q, res)
    ensures Reports(s, after, q, res)
  {
  }

  /** A report about `q` stays true when later writes leave `q.id` alone. */
  lemma ReportsLater<T>(s: Store<T>, s1: Store<T>, after: Store<T>, q: Req<T>, res: Result<Ack, StoreError>)
    requires Reports(s, s1, q, res)
    requires SameAt(s1, after, q.id)
    ensures Reports(s, after, q, res)
  {
  }

  /**
   * In a batch whose ids are pairwise distinct, each result reports on its
   * own document against the state before the batch, whatever happens to
   * the others: refused documents leave their id alone and the rest of the
   * batch is still written.
   */
  lemma {:induction false} ApplyAllReports<T>(s: Store<T>, reqs: seq<Req<T>>)
    requires s.online
    requires forall i, j :: 0 <= i < j < |reqs| ==> reqs[i].id != reqs[j].id
    ensures var b := ApplyAll(s, reqs);
            forall k :: 0 <= k < |reqs| ==> Reports(s, b.store, reqs[k], b.results[k])
    decreases |reqs|
  {
    if reqs != [] {
      var q := reqs[0];
      var tail := reqs[1..];
      assert forall k :: 0 <= k < |tail| ==> tail[k] == reqs[k + 1];
      var p := Put(s, q.id, q.rev, q.deleted, q.body);
      var s1 := if p.Ok? then p.value.store else s;
      var r0: Result<Ack, StoreError> := if p.Ok? then Ok(p.value.ack) else Err(p.error);
      if p.Ok? {
        ApplyAllFirstWritten(s, reqs);
      } else {
        ApplyAllFirstRefused(s, reqs);
      }
      var rest := ApplyAll(s1, tail);
      assert ApplyAll(s, reqs) == Batch(rest.store, [r0] + rest.results);
      ApplyAllReports(s1, tail);
      assert Reports(s, s1, q, r0);
      assert q.id !in ReqIds(tail);
      ReportsLater(s, s1, rest.store, q, r0);
      forall k | 0 <= k < |tail|
        ensures Reports(s, rest.store, tail[k], rest.results[k])
      {
        ReportsAcross(s, s1, rest.store, tail[k], rest.results[k]);
      }
    }
  }
}

=== FILE: listitems.dfy ===
/**
 * The List Items repository: checklist entries, each owned by one list,
 * queried through selectors on `listId`, `isDone` and `name`.
 */
module ListItems {
  import opened Results
  import opened DocStore
  import opened Replies
  import Decimal

  /** The fields of a stored item. */
  datatype ItemBody = ItemBody(listId: string, name: string, isDone: bool)

  /** An item as the application sees it: exactly id, rev, listId, name and isDone. */
  datatype ListItem = ListItem(id: string, rev: nat, listId: string, name: string, isDone: bool)

  type ItemStore = Store<ItemBody>

  /** A Mango selector over items: `listId` always, `isDone` and `name` when present. */
  datatype Selector = Selector(listId: string, isDone: Option<bool>, name: Option<string>)

  /** Whether an item's fields satisfy a selector (field-by-field equality). */
  predicate Matches(sel: Selector, b: ItemBody) {
    && b.listId == sel.listId
    && (sel.isDone.Some? ==> b.isDone == sel.isDone.value)
    && (sel.name.Some? ==> b.name == sel.name.value)
  }

  /** The `hideDone` argument as JavaScript receives it: a boolean, or some other value. */
  datatype HideArg = Flag(value: bool) | NotBool

  /** The item a stored document denotes, projected to the application's fields. */
  function Project(e: Entry<ItemBody>): ListItem {
    ListItem(e.id, e.doc.rev, e.doc.body.listId, e.doc.body.name, e.doc.body.isDone)
  }

  /** The fields an application item is stored with. */
  function BodyOf(item: ListItem): ItemBody {
    ItemBody(item.listId, item.name, item.isDone)
  }

  /** Whether `item` is exactly what `items` currently holds under `item.id`. */
  predicate Holds(items: ItemStore, item: ListItem) {
    items.Live(item.id) && items.docs[item.id] == Doc(item.rev, false, BodyOf(item))
  }

  /**
   * `buildIndexQuery`: only the boolean `false` asks for every item of the
   * list; any other argument restricts the query to items not yet done.
   */
  function BuildIndexQuery(listId: string, hideDone: HideArg): (sel: Selector)
    ensures sel.listId == listId && sel.name.None?
    ensures sel.isDone.None? <==> hideDone == Flag(false)
    ensures sel.isDone.Some? ==> sel.isDone.value == false
  {
    if hideDone == Flag(false) then Selector(listId, None, None)
    else Selector(listId, Some(false), None)
  }

  function ProjectAll(es: seq<Entry<ItemBody>>): (r: seq<ListItem>)
    ensures |r| == |es|
    ensures forall i :: 0 <= i < |es| ==> r[i] == Project(es[i])
    ensures forall e :: e in es ==> Project(e) in r
    ensures forall it :: it in r ==> exists e :: e in es && it == Project(e)
  {
    if es == [] then [] else [Project(es[0])] + ProjectAll(es[1..])
  }

  /** Whether an item of `listId` belongs in the answer for `hideDone`. */
  predicate Shown(b: ItemBody, listId: string, hideDone: HideArg) {
    b.listId == listId && (hideDone == Flag(false) || !b.isDone)
  }

  /** `GetListItems`: the live items of `listId`, all of them or only those not done. */
  function GetListItems(items: ItemStore, listId: string, hideDone: HideArg): (r: Result<seq<ListItem>, Rejection>)
    ensures r.Ok? <==> items.online
    ensures r.Ok? ==> forall it :: it in r.value ==> it.listId == listId && Holds(items, it)
    ensures r.Ok? && hideDone != Flag(false) ==> forall it :: it in r.value ==> !it.isDone
    ensures r.Ok? && items.Valid() ==>
              forall id :: items.Live(id) && Shown(items.docs[id].body, listId, hideDone) ==>
                Project(Entry(id, items.docs[id])) in r.value
    ensures r.Ok? && items.Valid() ==>
              forall i, j :: 0 <= i < j < |r.value| ==> r.value[i].id != r.value[j].id
  {
    var sel := BuildIndexQuery(listId, hideDone);
    match Find(items, (b: ItemBody) => Matches(sel, b))
    case Ok(es) =>
      var out := ProjectAll(es);
      assert forall id :: items.Live(id) && Shown(items.docs[id].body, listId, hideDone) ==> Matches(sel, items.docs[id].body);
      Ok(out)
    case Err(e) => Err(StoreRejected(e))
  }

  /** `ListItemExists`: whether some live item of `listId` is called `name`. */
  function ListItemExists(items: ItemStore, listId: string, name: string): (r: Result<bool, Rejection>)
    ensures r.Ok? <==> items.online
    ensures r.Ok? && r.value ==> exists id :: items.Live(id) && items.docs[id].body.listId == listId && items.docs[id].body.name == name
    ensures r.Ok? && items.Valid() && (exists id :: items.Live(id) && items.docs[id].body.listId == listId && items.docs[id].body.name == name) ==> r.value
  {
    var sel := Selector(listId, None, Some(name));
    match Find(items, (b: ItemBody) => Matches(sel, b))
    case Ok(es) =>
      assert |es| > 0 ==> es[0] in es;
      Ok(|es| > 0)
    case Err(e) => Err(StoreRejected(e))
  }

  /**
   * Whether `listId` starts with the engine's reserved `_`. Item ids begin
   * with their list's id, so the engine refuses exactly those of such lists.
   */
  predicate HasReservedPrefix(listId: string) {
    |listId| > 0 && listId[0] == '_'
  }

  /** The id `CreateListItem` gives an item of `listId` created at instant `now`. */
  function ItemId(listId: string, now: nat): (id: string)
    ensures |id| > |listId| && id[..|listId| + 1] == listId + ":"
    ensures ValidId(id) <==> !HasReservedPrefix(listId)
  {
    listId + ":" + Decimal.NatToString(now)
  }

  /**
   * `CreateListItem`: stores a not-done item `name` under `listId`, then
   * reads it back and answers what was read.
   */
  function CreateListItem(items: ItemStore, listId: string, name: string, now: nat): (r: Reply<ItemStore, ListItem>)
    ensures r.result.Ok? <==> items.online && !HasReservedPrefix(listId) && !items.Live(ItemId(listId, now))
    ensures r.result.Ok? ==>
              var it := r.result.value;
              && it.id == ItemId(listId, now)
              && it.listId == listId && it.name == name && !it.isDone
              && Holds(r.state, it)
              && (forall k :: k in r.state.docs <==> k in items.docs || k == ItemId(listId, now))
              && (forall k :: k != ItemId(listId, now) && k in items.docs ==> r.state.docs[k] == items.docs[k])
    ensures r.result.Err? ==> r.state == items
    ensures items.Valid() ==> r.state.Valid()
  {
    var id := ItemId(listId, now);
    match Put(items, id, None, false, ItemBody(listId, name, false))
    case Err(e) => Reply(items, Err(StoreRejected(e)))
    case Ok(w) =>
      if !w.ack.ok then Reply(w.store, Err(NotAcknowledged))
      else match Get(w.store, w.ack.id)
        case Err(e) => Reply(w.store, Err(StoreRejected(e)))
        case Ok(d) => Reply(w.store, Ok(Project(Entry(w.ack.id, d))))
  }

  /**
   * The write shared by `UpdateListItem` and `DeleteListItem`: a full
   * overwrite of `item` at `item.rev`, with `_deleted` set when `deleted`.
   * The answer is `item` with the new revision and without the marker.
   */
  function WriteItem(items: ItemStore, item: ListItem, deleted: bool): (r: Reply<ItemStore, ListItem>)
    ensures r.result.Ok? <==> items.online && ValidId(item.id) && Admits(items, item.id, Some(item.rev), deleted)
    ensures r.result.Ok? ==>
              && r.result.value == item.(rev := r.result.value.rev)
              && r.result.value.rev > item.rev
              && item.id in r.state.docs
              && r.state.docs[item.id] == Doc(r.result.value.rev, deleted, BodyOf(item))
              && (forall k :: k in r.state.docs <==> k in items.docs)
              && (forall k :: k != item.id && k in items.docs ==> r.state.docs[k] == items.docs[k])
    ensures items.online && ValidId(item.id) && r.result.Err? ==> r.result.error == StoreRejected(Conflict)
    ensures r.result.Err? ==> r.state == items
    ensures items.Valid() ==> r.state.Valid()
  {
    match Put(items, item.id, Some(item.rev), deleted, BodyOf(item))
    case Err(e) => Reply(items, Err(StoreRejected(e)))
    case Ok(w) =>
      if !w.ack.ok then Reply(w.store, Err(NotAcknowledged))
      else Reply(w.store, Ok(item.(id := w.ack.id, rev := w.ack.rev)))
  }

  /** `UpdateListItem`: overwrites `item` presenting its revision. */
  function UpdateListItem(items: ItemStore, item: ListItem): (r: Reply<ItemStore, ListItem>)
    ensures r.result.Ok? <==> items.online && ValidId(item.id) && item.id in items.docs && items.docs[item.id].rev == item.rev
    ensures r.result.Ok? ==>
              && r.result.value == item.(rev := r.result.value.rev)
              && r.result.value.rev > item.rev
              && Holds(r.state, r.result.value)
              && (forall k :: k in r.state.docs <==> k in items.docs)
              && (forall k :: k != item.id && k in items.docs ==> r.state.docs[k] == items.docs[k])
    ensures items.online && ValidId(item.id) && r.result.Err? ==> r.result.error == StoreRejected(Conflict)
    ensures r.result.Err? ==> r.state == items
    ensures items.Valid() ==> r.state.Valid()
  {
    WriteItem(items, item, false)
  }

  /**
   * `DeleteListItem`: the soft delete. The item is written again as a
   * tombstone that keeps its fields, so it drops out of every query while
   * still being present for an undo; the answer carries the tombstone's
   * revision and no deletion marker.
   */
  function DeleteListItem(items: ItemStore, item: ListItem): (r: Reply<ItemStore, ListItem>)
    ensures r.result.Ok? <==> items.online && ValidId(item.id) && item.id in items.docs && items.docs[item.id].rev == item.rev
    ensures r.result.Ok? ==>
              && r.result.value == item.(rev := r.result.value.rev)
              && r.result.value.rev > item.rev
              && item.id in r.state.docs
              && !r.state.Live(item.id)
              && r.state.docs[item.id] == Doc(r.result.value.rev, true, BodyOf(item))
              && (forall k :: k in r.state.docs <==> k in items.docs)
              && (forall k :: k != item.id && k in items.docs ==> r.state.docs[k] == items.docs[k])
    ensures items.online && ValidId(item.id) && r.result.Err? ==> r.result.error == StoreRejected(Conflict)
    ensures r.result.Err? ==> r.state == items
    ensures items.Valid() ==> r.state.Valid()
  {
    WriteItem(items, item, true)
  }

  // ---------------------------------------------------------------------
  // Properties of the item queries and writes.
  // ---------------------------------------------------------------------

  /** With `hideDone` anything but `false`, no item that is done is listed. */
  lemma HideDoneListsNoDoneItem(items: ItemStore, listId: string, hideDone: HideArg)
    requires hideDone != Flag(false)
    ensures var r := GetListItems(items, listId, hideDone);
            r.Ok? ==> forall it :: it in r.value ==> it.listId == listId && !it.isDone
  {
  }

  /** With `hideDone` false, the listing holds exactly the live items of the list. */
  lemma ShowAllListsEveryItem(items: ItemStore, listId: string, id: string)
    requires items.Valid() && items.online && items.Live(id)
    ensures var r := GetListItems(items, listId, Flag(false));
            && r.Ok?
            && (Project(Entry(id, items.docs[id])) in r.value <==> items.docs[id].body.listId == listId)
  {
  }

  /** A created item is listed with every hideDone setting, and its name now exists in the list. */
  lemma CreatedItemIsListed(items: ItemStore, listId: string, name: string, now: nat, hideDone: HideArg)
    requires items.Valid()
    requires CreateListItem(items, listId, name, now).result.Ok?
    ensures var c := CreateListItem(items, listId, name, now);
            && GetListItems(c.state, listId, hideDone).Ok?
            && c.result.value in GetListItems(c.state, listId, hideDone).value
            && ListItemExists(c.state, listId, name) == Ok(true)
  {
    var c := CreateListItem(items, listId, name, now);
    assert Project(Entry(c.result.value.id, c.state.docs[c.result.value.id])) == c.result.value;
    assert c.state.Live(c.result.value.id);
  }

  /**
   * Undo of a soft delete: the deleted item leaves the listing, and saving
   * the answered item again (with the tombstone's revision) brings it back
   * with its fields.
   */
  lemma {:induction false} DeleteThenUndo(items: ItemStore, item: ListItem)
    requires items.Valid() && Holds(items, item) && items.online
    ensures var d := DeleteListItem(items, item);
            && d.result.Ok?
            && Get(d.state, item.id) == Err(NotFound)
            && GetListItems(d.state, item.listId, Flag(false)).Ok?
            && (forall it :: it in GetListItems(d.state, item.listId, Flag(false)).value ==> it.id != item.id)
            && var u := UpdateListItem(d.state, d.result.value);
               && u.result.Ok?
               && u.result.value == item.(rev := u.result.value.rev)
               && Holds(u.state, u.result.value)
  {
    var d := DeleteListItem(items, item);
    assert d.state.docs[item.id].rev == d.result.value.rev;
  }
}

=== FILE: lists.dfy ===
/**
 * The Lists repository: named checklists whose id is the name itself, the
 * bulk import of a list with its items, and list deletion that removes the
 * list's items first.
 */
module Lists {
  import opened Results
  import opened DocStore
  import opened Replies
  import opened ListItems
  import Decimal

  /** A list document carries no fields: its id is its name. */
  type ListStore = Store<()>

  /** A list as the application sees it. */
  datatype List = List(id: string, rev: nat)

  /** One row of an import: whether the item is done, and its name. */
  datatype Row = Row(isDone: bool, name: string)

  function ToLists(es: seq<Entry<()>>): (ls: seq<List>)
    ensures |ls| == |es|
    ensures forall i :: 0 <= i < |es| ==> ls[i] == List(es[i].id, es[i].doc.rev)
    ensures forall e :: e in es ==> List(e.id, e.doc.rev) in ls
    ensures forall l :: l in ls ==> exists e :: e in es && l == List(e.id, e.doc.rev)
  {
    if es == [] then [] else [List(es[0].id, es[0].doc.rev)] + ToLists(es[1..])
  }

  /** `FindLists`: every live list with its current revision. */
  function FindLists(lists: ListStore): (r: Result<seq<List>, Rejection>)
    ensures r.Ok? <==> lists.online
    ensures r.Ok? ==> forall l :: l in r.value ==> lists.Live(l.id) && lists.docs[l.id].rev == l.rev
    ensures r.Ok? && lists.Valid() ==> forall id :: lists.Live(id) ==> List(id, lists.docs[id].rev) in r.value
  {
    match AllDocs(lists)
    case Ok(es) => Ok(ToLists(es))
    case Err(e) => Err(StoreRejected(e))
  }

  /** `FindList`: the live list called `name`, or the engine's failure. */
  function FindList(lists: ListStore, name: string): (r: Result<List, StoreError>)
    ensures r.Ok? <==> lists.online && lists.Live(name)
    ensures r.Ok? ==> r.value == List(name, lists.docs[name].rev)
    ensures lists.online && r.Err? ==> r.error == NotFound
  {
    match Get(lists, name)
    case Ok(d) => Ok(List(name, d.rev))
    case Err(e) => Err(e)
  }

  /**
   * `ListNameExists`: false only when the lookup fails with status 404; a
   * found list, and any other lookup failure, count as taken.
   */
  function ListNameExists(lists: ListStore, name: string): (b: bool)
    ensures !b <==> lists.online && !lists.Live(name)
    ensures !lists.online ==> b
  {
    match FindList(lists, name)
    case Ok(_) => true
    case Err(e) => e.Status() != 404
  }

  /** `CreateList`: stores an empty document whose id is `name`. */
  function CreateList(lists: ListStore, name: string): (r: Reply<ListStore, List>)
    ensures r.result.Ok? <==> lists.online && ValidId(name) && !lists.Live(name)
    ensures r.result.Ok? ==> r.result.value.id == name && r.state.Live(name) && r.state.docs[name].rev == r.result.value.rev
    ensures r.result.Ok? ==> forall k :: k != name ==> (k in r.state.docs <==> k in lists.docs) && (k in lists.docs ==> r.state.docs[k] == lists.docs[k])
    ensures lists.online && ValidId(name) && lists.Live(name) ==> r.result == Err(StoreRejected(Conflict))
    ensures r.result.Err? ==> r.state == lists
    ensures lists.Valid() ==> r.state.Valid()
  {
    match Put(lists, name, None, false, ())
    case Ok(w) => Reply(w.store, Ok(List(w.ack.id, w.ack.rev)))
    case Err(e) => Reply(lists, Err(StoreRejected(e)))
  }

  /** The id of row `index` of a bulk import into `listId`, with `now` the clock reading taken for that row. */
  function RowId(listId: string, index: nat, now: nat): string {
    listId + ":" + Decimal.NatToString(index) + ":" + Decimal.NatToString(now)
  }

  /**
   * The documents `BulkCreateListItems` submits: one per row, in row order.
   * The clock is read once per row, so `nows[k]` is the reading for row `k`.
   */
  function ItemsToCreate(listId: string, rows: seq<Row>, nows: seq<nat>): (reqs: seq<Req<ItemBody>>)
    requires |nows| == |rows|
    ensures |reqs| == |rows|
    ensures forall k :: 0 <= k < |rows| ==>
              && reqs[k].id == RowId(listId, k, nows[k])
              && reqs[k].body == ItemBody(listId, rows[k].name, rows[k].isDone)
              && reqs[k].rev.None? && !reqs[k].deleted
              && |reqs[k].id| > |listId| && reqs[k].id[..|listId| + 1] == listId + ":"
              && (ValidId(reqs[k].id) <==> !HasReservedPrefix(listId))
    ensures forall i, j :: 0 <= i < j < |rows| ==> reqs[i].id != reqs[j].id
  {
    var reqs := seq(|rows|, k requires 0 <= k < |rows| => Req(RowId(listId, k, nows[k]), None, false, ItemBody(listId, rows[k].name, rows[k].isDone)));
    forall i, j | 0 <= i < j < |rows|
      ensures reqs[i].id != reqs[j].id
    {
      RowIdsDistinct(listId, i, j, nows[i], nows[j]);
    }
    forall k | 0 <= k < |rows|
      ensures reqs[k].id[..|listId| + 1] == listId + ":"
    {
      assert RowId(listId, k, nows[k]) == (listId + ":") + (Decimal.NatToString(k) + ":" + Decimal.NatToString(nows[k]));
    }
    reqs
  }

  /** The part of `s` before its first `:` (all of `s` when it has none). */
  function UpToColon(s: string): string {
    if s == [] || s[0] == ':' then [] else [s[0]] + UpToColon(s[1..])
  }

  /** A numeral holds no `:`, so cutting at the first `:` recovers it. */
  lemma {:induction false} UpToColonOfNumeral(d: string, t: string)
    requires Decimal.AllDigits(d)
    ensures UpToColon(d + (":" + t)) == d
  {
    if d != [] {
      assert (d + (":" + t))[1..] == d[1..] + (":" + t);
      UpToColonOfNumeral(d[1..], t);
    }
  }

  /** A row id determines the row's index and the clock reading it was made with. */
  lemma RowIdInjective(listId: string, i: nat, j: nat, ti: nat, tj: nat)
    requires RowId(listId, i, ti) == RowId(listId, j, tj)
    ensures i == j && ti == tj
  {
    var p := listId + ":";
    var di := Decimal.NatToString(i);
    var dj := Decimal.NatToString(j);
    var si := ":" + Decimal.NatToString(ti);
    var sj := ":" + Decimal.NatToString(tj);
    assert RowId(listId, i, ti) == p + (di + si);
    assert RowId(listId, j, tj) == p + (dj + sj);
    assert (p + (di + si))[|p|..] == di + si;
    assert (p + (dj + sj))[|p|..] == dj + sj;
    UpToColonOfNumeral(di, Decimal.NatToString(ti));
    UpToColonOfNumeral(dj, Decimal.NatToString(tj));
    assert di == dj;
    Decimal.NatToStringInjective(i, j);
    assert (di + si)[|di|..] == si;
    assert (dj + sj)[|dj|..] == sj;
    assert si[1..] == Decimal.NatToString(ti);
    assert sj[1..] == Decimal.NatToString(tj);
    Decimal.NatToStringInjective(ti, tj);
  }

  /** Rows at different indices get different ids, whatever clock readings they were made with. */
  lemma RowIdsDistinct(listId: string, i: nat, j: nat, ti: nat, tj: nat)
    requires i != j
    ensures RowId(listId, i, ti) != RowId(listId, j, tj)
  {
    if RowId(listId, i, ti) == RowId(listId, j, tj) {
      RowIdInjective(listId, i, j, ti, tj);
    }
  }

  /**
   * `BulkCreateListItems`: submits one not-deleted item per row in a single
   * batch; `nows[k]` is the clock reading taken while building row `k`.
   */
  function BulkCreateListItems(items: ItemStore, listId: string, rows: seq<Row>, nows: seq<nat>): (r: Reply<ItemStore, seq<Result<Ack, StoreError>>>)
    requires |nows| == |rows|
    ensures r.result.Ok? <==> items.online && (rows == [] || !HasReservedPrefix(listId))
    ensures r.result.Ok? ==> |r.result.value| == |rows|
    ensures r.result.Err? ==> r.state == items
    ensures forall k :: k in r.state.docs ==> k in items.docs || k in ReqIds(ItemsToCreate(listId, rows, nows))
    ensures forall k :: k in items.docs ==> k in r.state.docs
    ensures forall k :: k in items.docs && k !in ReqIds(ItemsToCreate(listId, rows, nows)) ==> r.state.docs[k] == items.docs[k]
    ensures items.Valid() ==> r.state.Valid()
  {
    var reqs := ItemsToCreate(listId, rows, nows);
    match BulkDocs(items, reqs)
    case Ok(b) => Reply(b.store, Ok(b.results))
    case Err(e) => Reply(items, Err(StoreRejected(e)))
  }

  /**
   * `ImportList`: creates the list, then its items in one batch. Rows the
   * batch refuses are only reported: the list is answered all the same. A
   * list created before the batch itself rejects stays created.
   */
  function ImportList(lists: ListStore, items: ItemStore, name: string, rows: seq<Row>, nows: seq<nat>): (r: Reply<(ListStore, ItemStore), List>)
    requires |nows| == |rows|
    ensures r.result.Ok? <==> lists.online && ValidId(name) && !lists.Live(name) && items.online
    ensures r.result.Ok? ==>
              && r.result.value.id == name && r.state.0.Live(name)
              && r.state.0.docs[name].rev == r.result.value.rev
    ensures !(lists.online && ValidId(name) && !lists.Live(name)) ==> r.state == (lists, items)
    ensures forall k :: k != name ==> (k in r.state.0.docs <==> k in lists.docs) && (k in lists.docs ==> r.state.0.docs[k] == lists.docs[k])
    ensures lists.online && ValidId(name) && !lists.Live(name) && !items.online ==>
              r.result.Err? && r.state.0.Live(name) && r.state.1 == items
    ensures forall k :: k in r.state.1.docs ==> k in items.docs || k in ReqIds(ItemsToCreate(name, rows, nows))
    ensures forall k :: k in items.docs ==> k in r.state.1.docs
    ensures forall k :: k in items.docs && k !in ReqIds(ItemsToCreate(name, rows, nows)) ==> r.state.1.docs[k] == items.docs[k]
    ensures lists.Valid() && items.Valid() ==> r.state.0.Valid() && r.state.1.Valid()
  {
    var created := CreateList(lists, name);
    match created.result
    case Err(e) => Reply((lists, items), Err(e))
    case Ok(list) =>
      var bulk := BulkCreateListItems(items, list.id, rows, nows);
      match bulk.result
      case Err(e) => Reply((created.state, bulk.state), Err(e))
      case Ok(_) => Reply((created.state, bulk.state), Ok(list))
  }

  /** `{...doc, _deleted: true}` for every found document, at its current revision. */
  function MarkDeleted(es: seq<Entry<ItemBody>>): (reqs: seq<Req<ItemBody>>)
    ensures |reqs| == |es|
    ensures forall k :: 0 <= k < |es| ==> reqs[k] == Req(es[k].id, Some(es[k].doc.rev), true, es[k].doc.body)
    ensures ReqIds(reqs) == set e | e in es :: e.id
    ensures DistinctIds(es) ==> forall i, j :: 0 <= i < j < |reqs| ==> reqs[i].id != reqs[j].id
  {
    var reqs := seq(|es|, k requires 0 <= k < |es| => Req(es[k].id, Some(es[k].doc.rev), true, es[k].doc.body));
    assert forall id :: id in (set e | e in es :: e.id) ==> id in ReqIds(reqs) by {
      forall id | id in (set e | e in es :: e.id) ensures id in ReqIds(reqs) {
        var k :| 0 <= k < |es| && es[k].id == id;
        assert reqs[k].id == id;
      }
    }
    reqs
  }

  /**
   * Against any store holding every found entry as found, each tombstone
   * of the cascade batch is admitted: it names the stored revision.
   */
  lemma MarkDeletedAccepted(s: ItemStore, es: seq<Entry<ItemBody>>)
    requires forall e :: e in es ==> ValidId(e.id) && e.id in s.docs && s.docs[e.id] == e.doc
    ensures forall k :: 0 <= k < |es| ==> Accepted(s, MarkDeleted(es)[k]) && MarkDeleted(es)[k].deleted
  {
  }

  /** The selector the cascade finds a list's items with. */
  function OfList(listId: string): ItemBody -> bool {
    (b: ItemBody) => b.listId == listId
  }

  /**
   * `DeleteAllListItemsFromList`: finds the live items of `listId` and, if
   * there are any, writes them all back as tombstones in one batch. The
   * per-document outcomes are not inspected. Any rejection becomes the
   * cascade failure.
   */
  function DeleteAllListItemsFromList(items: ItemStore, listId: string): (r: Reply<ItemStore, ()>)
    ensures r.result.Ok? ==> items.online
    ensures items.Valid() && items.online ==> r.result.Ok?
    ensures r.result.Err? ==> r.result.error == CascadeFailed && r.state == items
    ensures items.Valid() ==> r.state.Valid()
  {
    match Find(items, OfList(listId))
    case Err(_) => Reply(items, Err(CascadeFailed))
    case Ok(es) =>
      if |es| > 0 then
        match BulkDocs(items, MarkDeleted(es))
        case Err(_) => Reply(items, Err(CascadeFailed))
        case Ok(b) => Reply(b.store, Ok(()))
      else Reply(items, Ok(()))
  }

  /**
   * `DeleteList`: the item cascade first, and only once it has succeeded the
   * removal of the list document at revision `rev`.
   */
  function DeleteList(lists: ListStore, items: ItemStore, listId: string, rev: nat): (r: Reply<(ListStore, ItemStore), ()>)
    ensures r.result.Ok? ==> items.online
    ensures items.Valid() ==>
              (r.result.Ok? <==> items.online && lists.online && ValidId(listId) && listId in lists.docs && lists.docs[listId].rev == rev)
    ensures !items.online ==> r == Reply((lists, items), Err(CascadeFailed))
    ensures r.result.Ok? ==> !r.state.0.Live(listId)
    ensures r.result.Err? ==> r.state.0 == lists
    ensures r.result.Ok? ==> forall k :: k != listId ==> (k in r.state.0.docs <==> k in lists.docs) && (k in lists.docs ==> r.state.0.docs[k] == lists.docs[k])
    ensures lists.Valid() && items.Valid() ==> r.state.0.Valid() && r.state.1.Valid()
  {
    var cascade := DeleteAllListItemsFromList(items, listId);
    match cascade.result
    case Err(e) => Reply((lists, cascade.state), Err(e))
    case Ok(_) =>
      match Remove(lists, listId, rev)
      case Err(e) => Reply((lists, cascade.state), Err(StoreRejected(e)))
      case Ok(w) => Reply((w.store, cascade.state), Ok(()))
  }

  // ---------------------------------------------------------------------
  // Properties of list creation, import and deletion.
  // ---------------------------------------------------------------------

  /** A created list's name exists, and creating it a second time conflicts. */
  lemma CreateListTwiceConflicts(lists: ListStore, name: string)
    requires CreateList(lists, name).result.Ok?
    ensures var c := CreateList(lists, name);
            && ListNameExists(c.state, name)
            && CreateList(c.state, name).result == Err(StoreRejected(Conflict))
  {
  }

  /** A name that was never created does not exist while the engine answers. */
  lemma NeverCreatedNameIsFree(lists: ListStore, name: string)
    requires lists.online && name !in lists.docs
    ensures !ListNameExists(lists, name)
  {
  }

  /**
   * Writing found documents back as tombstones at their current revisions
   * succeeds for each of them and keeps their fields.
   */
  lemma MarkDeletedApplies(items: ItemStore, es: seq<Entry<ItemBody>>)
    requires items.online && DistinctIds(es)
    requires forall k :: 0 <= k < |es| ==> ValidId(es[k].id) && es[k].id in items.docs && items.docs[es[k].id] == es[k].doc
    ensures var b := ApplyAll(items, MarkDeleted(es));
            forall k :: 0 <= k < |es| ==> es[k].id in b.store.docs && b.store.docs[es[k].id].deleted
  {
    var reqs := MarkDeleted(es);
    forall k | 0 <= k < |reqs|
      ensures Accepted(items, reqs[k])
    {
    }
    ApplyAllAccepted(items, reqs);
  }

  /** Every found document's id is among the ids the cascade writes back. */
  lemma FoundIdIsWritten(es: seq<Entry<ItemBody>>, e: Entry<ItemBody>)
    requires e in es
    ensures e.id in ReqIds(MarkDeleted(es))
  {
  }

  /** The cascade writes every found item as a tombstone and leaves every other document as it was. */
  lemma CascadeEffect(items: ItemStore, listId: string)
    requires items.Valid() && items.online
    ensures var c := DeleteAllListItemsFromList(items, listId);
            && c.result.Ok?
            && (forall id :: c.state.Live(id) ==> c.state.docs[id].body.listId != listId)
            && (forall id :: id in items.docs && items.docs[id].body.listId != listId ==>
                  id in c.state.docs && c.state.docs[id] == items.docs[id])
            && (forall id :: id in c.state.docs <==> id in items.docs)
  {
    var es := Find(items, OfList(listId)).value;
    var c := DeleteAllListItemsFromList(items, listId);
    if |es| > 0 {
      assert forall k :: 0 <= k < |es| ==> es[k] in es;
      MarkDeletedApplies(items, es);
      var b := ApplyAll(items, MarkDeleted(es));
      assert c.state == b.store;
      forall id | c.state.Live(id)
        ensures c.state.docs[id].body.listId != listId
      {
        assert id !in ReqIds(MarkDeleted(es));
        assert items.Live(id) && c.state.docs[id] == items.docs[id];
        if items.docs[id].body.listId == listId {
          FoundIdIsWritten(es, Entry(id, items.docs[id]));
        }
      }
      forall id | id in items.docs && items.docs[id].body.listId != listId
        ensures id !in ReqIds(MarkDeleted(es))
      {
      }
    }
  }

  /**
   * A successful list deletion leaves neither the list nor any live item of
   * it, and leaves the items of other lists untouched.
   */
  lemma DeleteListRemovesListAndItems(lists: ListStore, items: ItemStore, listId: string, rev: nat)
    requires items.Valid()
    requires DeleteList(lists, items, listId, rev).result.Ok?
    ensures var d := DeleteList(lists, items, listId, rev);
            && FindList(d.state.0, listId) == Err(NotFound)
            && GetListItems(d.state.1, listId, Flag(false)) == Ok([])
            && (forall id :: id in items.docs && items.docs[id].body.listId != listId ==>
                  id in d.state.1.docs && d.state.1.docs[id] == items.docs[id])
  {
    CascadeEffect(items, listId);
  }

  /** When the cascade rejects, the list is not touched and the call rejects. */
  lemma FailedCascadeKeepsList(lists: ListStore, items: ItemStore, listId: string, rev: nat)
    requires !items.online
    ensures var d := DeleteList(lists, items, listId, rev);
            && d.result == Err(CascadeFailed)
            && d.state.0 == lists
            && FindList(d.state.0, listId) == FindList(lists, listId)
  {
  }

  /**
   * The ordering has a consequence the other way round: with a stale list
   * revision the items are already gone when the removal of the list
   * conflicts, and the list stays.
   */
  lemma StaleListRevStillCascades(lists: ListStore, items: ItemStore, listId: string, rev: nat)
    requires items.Valid() && items.online && lists.online
    requires lists.Live(listId) && ValidId(listId) && lists.docs[listId].rev != rev
    ensures var d := DeleteList(lists, items, listId, rev);
            && d.result == Err(StoreRejected(Conflict))
            && d.state.0 == lists
            && GetListItems(d.state.1, listId, Flag(false)) == Ok([])
  {
    CascadeEffect(items, listId);
  }

  /**
   * An import into fresh ids stores every row as a live item of the list,
   * with the row's name and done state.
   */
  lemma {:induction false} ImportStoresEveryRow(lists: ListStore, items: ItemStore, name: string, rows: seq<Row>, nows: seq<nat>)
    requires |nows| == |rows|
    requires items.Valid() && items.online
    requires lists.online && ValidId(name) && !lists.Live(name)
    requires forall k :: 0 <= k < |rows| ==> !items.Live(RowId(name, k, nows[k]))
    ensures var r := ImportList(lists, items, name, rows, nows);
            && r.result == Ok(List(name, r.state.0.docs[name].rev))
            && forall k :: 0 <= k < |rows| ==>
                 && r.state.1.Live(RowId(name, k, nows[k]))
                 && r.state.1.docs[RowId(name, k, nows[k])].body == ItemBody(name, rows[k].name, rows[k].isDone)
  {
    var reqs := ItemsToCreate(name, rows, nows);
    forall k | 0 <= k < |reqs|
      ensures Accepted(items, reqs[k])
    {
      assert reqs[k].id == RowId(name, k, nows[k]);
    }
    ApplyAllAccepted(items, reqs);
    var r := ImportList(lists, items, name, rows, nows);
    assert r.state.1 == ApplyAll(items, reqs).store;
    forall k | 0 <= k < |rows|
      ensures && r.state.1.Live(RowId(name, k, nows[k]))
              && r.state.1.docs[RowId(name, k, nows[k])].body == ItemBody(name, rows[k].name, rows[k].isDone)
    {
      assert reqs[k].id == RowId(name, k, nows[k]);
    }
  }

  /**
   * Whatever happens to the other rows, an import stores every row whose id
   * was not live as a live item of the list with the row's name and done
   * state, and leaves the item under any other row's id exactly as it was.
   */
  lemma ImportStoresFreeRows(lists: ListStore, items: ItemStore, name: string, rows: seq<Row>, nows: seq<nat>)
    requires |nows| == |rows|
    requires items.online
    requires lists.online && ValidId(name) && !lists.Live(name)
    ensures var r := ImportList(lists, items, name, rows, nows);
            && r.result.Ok?
            && forall k :: 0 <= k < |rows| ==>
                 && (!items.Live(RowId(name, k, nows[k])) ==>
                       && r.state.1.Live(RowId(name, k, nows[k]))
                       && r.state.1.docs[RowId(name, k, nows[k])].body == ItemBody(name, rows[k].name, rows[k].isDone))
                 && (items.Live(RowId(name, k, nows[k])) ==>
                       && RowId(name, k, nows[k]) in r.state.1.docs
                       && r.state.1.docs[RowId(name, k, nows[k])] == items.docs[RowId(name, k, nows[k])])
  {
  }

  /** When exactly one live item of a list is not done, hiding done items lists that one and nothing else. */
  lemma SoleActiveItem(items: ItemStore, listId: string, id: string)
    requires items.Valid() && items.online
    requires items.Live(id) && Shown(items.docs[id].body, listId, Flag(true))
    requires forall k :: items.Live(k) && Shown(items.docs[k].body, listId, Flag(true)) ==> k == id
    ensures var r := GetListItems(items, listId, Flag(true));
            && r.Ok?
            && Project(Entry(id, items.docs[id])) in r.value
            && forall it :: it in r.value ==> it == Project(Entry(id, items.docs[id]))
  {
    var r := GetListItems(items, listId, Flag(true));
    forall it | it in r.value
      ensures it == Project(Entry(id, items.docs[id]))
    {
      assert Holds(items, it);
    }
  }

  /**
   * Importing "Groceries" with a not-done "Milk" and a done "Eggs" into
   * empty collections, at clock readings `t0` and `t1` for the two rows,
   * then listing with hideDone set, answers the "Milk" item and nothing else.
   */
  lemma GroceriesScenario(t0: nat, t1: nat)
    ensures var imp := ImportList(EmptyStore(), EmptyStore(), "Groceries", [Row(false, "Milk"), Row(true, "Eggs")], [t0, t1]);
            var r := GetListItems(imp.state.1, "Groceries", Flag(true));
            && imp.result.Ok? && r.Ok? && r.value != []
            && forall it :: it in r.value ==> it.id == RowId("Groceries", 0, t0) && it.name == "Milk" && !it.isDone
  {
    var lists: ListStore := EmptyStore();
    var items: ItemStore := EmptyStore();
    var name := "Groceries";
    var rows := [Row(false, "Milk"), Row(true, "Eggs")];
    var nows := [t0, t1];
    ImportStoresEveryRow(lists, items, name, rows, nows);
    var imp := ImportList(lists, items, name, rows, nows);
    var reqs := ItemsToCreate(name, rows, nows);
    var st := imp.state.1;
    assert st == ApplyAll(items, reqs).store;
    var milk := RowId(name, 0, t0);
    var eggs := RowId(name, 1, t1);
    assert reqs[0].id == milk && reqs[1].id == eggs;
    forall k | st.Live(k) && Shown(st.docs[k].body, name, Flag(true))
      ensures k == milk
    {
      assert k in ReqIds(reqs);
    }
    SoleActiveItem(st, name, milk);
  }
}

=== FILE: notes.dfy ===
/** The Notes repository: free-text notes kept in their own collection. */
module Notes {
  import opened Results
  import opened DocStore
  import opened Replies
  import Decimal

  /** The fields of a stored note. */
  datatype NoteBody = NoteBody(content: string)

  /** A note as the application sees it. */
  datatype Note = Note(id: string, rev: nat, content: string)

  type NoteStore = Store<NoteBody>

  /** The note a stored document denotes (`mapDocument`, `mapAllDocs`). */
  function ToNote(e: Entry<NoteBody>): Note {
    Note(e.id, e.doc.rev, e.doc.body.content)
  }

  /** Whether `n` is exactly what `notes` currently holds under `n.id`. */
  predicate Holds(notes: NoteStore, n: Note) {
    notes.Live(n.id) && notes.docs[n.id] == Doc(n.rev, false, NoteBody(n.content))
  }

  function ToNotes(es: seq<Entry<NoteBody>>): (ns: seq<Note>)
    ensures |ns| == |es|
    ensures forall i :: 0 <= i < |es| ==> ns[i] == ToNote(es[i])
  {
    if es == [] then [] else [ToNote(es[0])] + ToNotes(es[1..])
  }

  /** `FindNotes`: every live note, in store order. */
  function FindNotes(notes: NoteStore): (r: Result<seq<Note>, Rejection>)
    ensures r.Ok? <==> notes.online
    ensures r.Ok? ==> forall n :: n in r.value ==> Holds(notes, n)
    ensures r.Ok? && notes.Valid() ==> forall id :: notes.Live(id) ==> ToNote(Entry(id, notes.docs[id])) in r.value
  {
    match AllDocs(notes)
    case Ok(es) =>
      var ns := ToNotes(es);
      assert forall id :: notes.Live(id) && Entry(id, notes.docs[id]) in es ==> ToNote(Entry(id, notes.docs[id])) in ns by {
        forall id | notes.Live(id) && Entry(id, notes.docs[id]) in es
          ensures ToNote(Entry(id, notes.docs[id])) in ns
        {
          var i :| 0 <= i < |es| && es[i] == Entry(id, notes.docs[id]);
          assert ns[i] == ToNote(es[i]);
        }
      }
      Ok(ns)
    case Err(e) => Err(StoreRejected(e))
  }

  /** The id `CreateNote` gives a note created at instant `now`. */
  function NoteId(now: nat): (id: string)
    ensures ValidId(id)
  {
    Decimal.NatToString(now)
  }

  /** `CreateNote`: stores `content` under the id rendered from the clock reading `now`. */
  function CreateNote(notes: NoteStore, content: string, now: nat): (r: Reply<NoteStore, Note>)
    ensures r.result.Ok? <==> notes.online && !notes.Live(NoteId(now))
    ensures r.result.Ok? ==>
              && r.result.value.id == NoteId(now)
              && r.result.value.content == content
              && r.result.value.rev > 0
              && Holds(r.state, r.result.value)
              && (forall k :: k in r.state.docs <==> k in notes.docs || k == NoteId(now))
              && (forall k :: k != NoteId(now) && k in notes.docs ==> r.state.docs[k] == notes.docs[k])
    ensures r.result.Err? ==> r.state == notes
    ensures notes.Valid() ==> r.state.Valid()
  {
    match Put(notes, NoteId(now), None, false, NoteBody(content))
    case Ok(w) => Reply(w.store, Ok(Note(w.ack.id, w.ack.rev, content)))
    case Err(e) => Reply(notes, Err(StoreRejected(e)))
  }

  /** `UpdateNote`: overwrites the content of `note.id`, presenting `note.rev`. */
  function UpdateNote(notes: NoteStore, note: Note): (r: Reply<NoteStore, Note>)
    ensures r.result.Ok? <==> notes.online && ValidId(note.id) && note.id in notes.docs && notes.docs[note.id].rev == note.rev
    ensures r.result.Ok? ==>
              && r.result.value.id == note.id
              && r.result.value.content == note.content
              && r.result.value.rev > note.rev
              && Holds(r.state, r.result.value)
              && (forall k :: k in r.state.docs <==> k in notes.docs)
              && (forall k :: k != note.id && k in notes.docs ==> r.state.docs[k] == notes.docs[k])
    ensures notes.online && ValidId(note.id) && r.result.Err? ==> r.result.error == StoreRejected(Conflict)
    ensures r.result.Err? ==> r.state == notes
    ensures notes.Valid() ==> r.state.Valid()
  {
    match Put(notes, note.id, Some(note.rev), false, NoteBody(note.content))
    case Ok(w) => Reply(w.store, Ok(note.(rev := w.ack.rev)))
    case Err(e) => Reply(notes, Err(StoreRejected(e)))
  }

  /** `FindNote`: the live note stored under `id`. */
  function FindNote(notes: NoteStore, id: string): (r: Result<Note, Rejection>)
    ensures r.Ok? <==> notes.online && notes.Live(id)
    ensures r.Ok? ==> r.value.id == id && Holds(notes, r.value)
    ensures notes.online && r.Err? ==> r.error == StoreRejected(NotFound)
  {
    match Get(notes, id)
    case Ok(d) => Ok(ToNote(Entry(id, d)))
    case Err(e) => Err(StoreRejected(e))
  }

  /** `DeleteNote`: removes `id` at revision `rev`, answering `[id, tombstone rev]`. */
  function DeleteNote(notes: NoteStore, id: string, rev: nat): (r: Reply<NoteStore, (string, nat)>)
    ensures r.result.Ok? <==> notes.online && ValidId(id) && id in notes.docs && notes.docs[id].rev == rev
    ensures r.result.Ok? ==>
              && r.result.value.0 == id && r.result.value.1 > rev
              && id in r.state.docs && !r.state.Live(id)
              && r.state.docs[id].rev == r.result.value.1
              && (forall k :: k in r.state.docs <==> k in notes.docs)
              && (forall k :: k != id && k in notes.docs ==> r.state.docs[k] == notes.docs[k])
    ensures notes.online && ValidId(id) && id !in notes.docs ==> r.result == Err(StoreRejected(NotFound))
    ensures notes.online && ValidId(id) && id in notes.docs && notes.docs[id].rev != rev ==> r.result == Err(StoreRejected(Conflict))
    ensures r.result.Err? ==> r.state == notes
    ensures notes.Valid() ==> r.state.Valid()
  {
    match Remove(notes, id, rev)
    case Ok(w) =>
      if !w.ack.ok then Reply(w.store, Err(NotAcknowledged))
      else Reply(w.store, Ok((w.ack.id, w.ack.rev)))
    case Err(e) => Reply(notes, Err(StoreRejected(e)))
  }

  // ---------------------------------------------------------------------
  // Round trips between the operations.
  // ---------------------------------------------------------------------

  /** A created note is found under its id with the same content and a revision. */
  lemma CreateThenFind(notes: NoteStore, content: string, now: nat)
    requires notes.online && !notes.Live(NoteId(now))
    ensures var c := CreateNote(notes, content, now);
            && c.result.Ok?
            && FindNote(c.state, NoteId(now)) == Ok(c.result.value)
            && c.result.value.content == content
  {
  }

  /**
   * After an update, the note is found with the new content, and a second
   * update that presents the old revision conflicts.
   */
  lemma UpdateThenFindAndStale(notes: NoteStore, note: Note, content: string)
    requires notes.Valid() && FindNote(notes, note.id) == Ok(note)
    ensures var u := UpdateNote(notes, note.(content := content));
            && u.result.Ok?
            && u.result.value.rev != note.rev
            && FindNote(u.state, note.id) == Ok(u.result.value)
            && u.result.value.content == content
            && UpdateNote(u.state, note).result == Err(StoreRejected(Conflict))
  {
  }

  /** A deleted note is no longer found, and deleting it again with the old revision conflicts. */
  lemma DeleteThenFind(notes: NoteStore, note: Note)
    requires notes.Valid() && FindNote(notes, note.id) == Ok(note)
    ensures var d := DeleteNote(notes, note.id, note.rev);
            && d.result.Ok?
            && FindNote(d.state, note.id) == Err(StoreRejected(NotFound))
            && DeleteNote(d.state, note.id, note.rev).result == Err(StoreRejected(Conflict))
  {
  }
}

=== FILE: preferences.dfy ===
/**
 * The per-list "hide done items" preference: one document per list, keyed
 * by the list's id and holding a single boolean.
 */
module Preferences {
  import opened Results
  import opened DocStore
  import opened Replies

  type HideDoneStore = Store<bool>

  /** `GetHideDone`: the stored preference; `false` when the lookup fails with status 404. */
  function GetHideDone(prefs: HideDoneStore, listId: string): (r: Result<bool, Rejection>)
    ensures r.Ok? <==> prefs.online
    ensures r.Ok? ==> (r.value <==> prefs.Live(listId) && prefs.docs[listId].body)
    ensures !prefs.online ==> r == Err(StoreRejected(Unavailable))
  {
    match Get(prefs, listId)
    case Ok(d) => Ok(d.body)
    case Err(e) => if e.Status() == 404 then Ok(false) else Err(StoreRejected(e))
  }

  /**
   * `SaveHideDone`: reads the preference to learn its revision and writes
   * the new value at that revision; when that chain fails with status 404
   * it creates the document instead. Other failures are passed on.
   */
  function SaveHideDone(prefs: HideDoneStore, listId: string, hideDone: bool): (r: Reply<HideDoneStore, Ack>)
    ensures r.result.Ok? <==> prefs.online && ValidId(listId)
    ensures r.result.Ok? ==>
              && r.result.value.id == listId
              && r.state.Live(listId) && r.state.docs[listId].body == hideDone
              && r.state.docs[listId].rev == r.result.value.rev
              && (forall k :: k != listId ==> (k in r.state.docs <==> k in prefs.docs))
              && (forall k :: k != listId && k in prefs.docs ==> r.state.docs[k] == prefs.docs[k])
    ensures r.result.Err? ==> r.state == prefs
    ensures prefs.Valid() ==> r.state.Valid()
  {
    var update :=
      match Get(prefs, listId)
      case Ok(d) => Put(prefs, listId, Some(d.rev), false, hideDone)
      case Err(e) => Err(e);
    match update
    case Ok(w) => Reply(w.store, Ok(w.ack))
    case Err(e) =>
      if e.Status() == 404 then
        match Put(prefs, listId, None, false, hideDone)
        case Ok(w) => Reply(w.store, Ok(w.ack))
        case Err(e') => Reply(prefs, Err(StoreRejected(e')))
      else Reply(prefs, Err(StoreRejected(e)))
  }

  /** With no preference saved for the list, the preference reads as `false`. */
  lemma DefaultIsFalse(prefs: HideDoneStore, listId: string)
    requires prefs.online && !prefs.Live(listId)
    ensures GetHideDone(prefs, listId) == Ok(false)
  {
  }

  /**
   * Saving and then reading gives back the saved value, whether the
   * document existed before or not, and leaves every other list's
   * preference as it read before.
   */
  lemma SaveThenGet(prefs: HideDoneStore, listId: string, hideDone: bool, other: string)
    requires prefs.online && ValidId(listId)
    ensures var s := SaveHideDone(prefs, listId, hideDone);
            && s.result.Ok?
            && GetHideDone(s.state, listId) == Ok(hideDone)
            && (other != listId ==> GetHideDone(s.state, other) == GetHideDone(prefs, other))
  {
  }

  /** Saving the value already stored leaves what the preference reads unchanged. */
  lemma SaveIsIdempotent(prefs: HideDoneStore, listId: string, hideDone: bool)
    requires prefs.online && ValidId(listId)
    ensures var s1 := SaveHideDone(prefs, listId, hideDone);
            var s2 := SaveHideDone(s1.state, listId, hideDone);
            && s2.result.Ok?
            && GetHideDone(s2.state, listId) == GetHideDone(s1.state, listId)
  {
  }
}

=== FILE: replies.dfy ===
/** What a repository call hands back to its caller. */
module Replies {
  import opened Results
  import opened DocStore

  /**
   * Why a repository call rejected: an engine failure passed on, a write
   * acknowledged with `ok: false`, or the item cascade of a list deletion.
   */
  datatype Rejection = StoreRejected(cause: StoreError) | NotAcknowledged | CascadeFailed

  /**
   * The collections' state once the call settles, with its outcome. Writes
   * made before a later step rejected stay in `state`.
   */
  datatype Reply<S, T> = Reply(state: S, result: Result<T, Rejection>)
}

=== FILE: results.dfy ===
/** Optional values and success/failure values shared by the store and the repositories. */
module Results {

  datatype Option<+T> = None | Some(value: T)

  /** The settled state of a promise: fulfilled with a value or rejected with a reason. */
  datatype Result<+T, +E> = Ok(value: T) | Err(error: E)
}
